=== FILE: README.md ===
# kunoichi in Dafny

kunoichi declares ninja build graphs from Python. A `Task` collects rule
functions, either bare-decorated or decorated with keyword options. It also
collects build generators. `generate` calls every rule function with the
configuration value and writes one ninja `rule` per function. The rule's
description is resolved from the explicit option, else the docstring, else
`''`. It then calls every build generator and turns each edge descriptor it
yields into one `writer.build` call:

- a dict loses `outputs` and `rule`, and its other keys are forwarded as
  keywords;
- a list or tuple is read by position;
- anything else is skipped.

A module-level list collects configuration functions.

The repository also holds a Ruby sketch of the same idea, `kuno`:

- a class-level registry of step classes per step type;
- a lazily computed and then cached map of the classes whose `check` passes;
- `Step.new`, which instantiates the first available class;
- a `Task` that normalises its outputs and accumulates steps and
  configuration blocks;
- `ShellStep`, a step that holds one command.

Modules:

- `Results` (results.dfy): `Option` and `Result`.
- `PyValues` (pyvalues.dfy): the Python values the front end handles.
  - Dicts are association lists. Python 2 dicts, keyword dicts included,
    have no defined order, so the fixed order here is a modelling choice.
  - `dict.pop` is included.
  - Iteration covers strings, lists, tuples, dicts and generators. Any
    other iterable (a set, `xrange`, an iterator) is represented by the
    generator of the items it yields; `PyObject` is an object that is
    neither callable nor iterable.
  - `KeyError`, `IndexError` and `AssertionError` are the errors.
- `Kunoichi` (kunoichi.dfy): kunoichi.py.
  - The ninja writer is an abstract recorder. It appends a `RuleCall` or a
    `BuildCall` to a trace for each `writer.rule` or `writer.build` call.
  - Rule functions and build generators are the function parameters
    `callRule` and `callBuild`, applied to the function and the
    configuration value.
  - The `Run…` methods are the loops of `generate` and `_add_build`, proved
    equal to the recursive definitions.
- `KunoichiExample` (example.dfy): example.py, replayed through the model.
  The globbed file names are a parameter.
- `RubyValues`, `KunoShell`, `KunoStep` and `KunoTask` (rubyvalues.dfy,
  kuno_shell.dfy, kuno_step.dfy, kuno_task.dfy): the Ruby files.
  - The two class variables of `Step` form a `Registry` value that is
    passed in and returned.
  - `check` of classes other than `ShellStep` is a parameter.
  - `Docile.dsl_eval` is a parameter too.

Behaviour of the code worth noting:

- `generate` never runs the functions registered with `config`. They are
  only collected.
- There is no duplicate-rule check.
- There is no empty-`outputs` check.
- There is no check that an edge's rule exists.
- Absent positions of a list or tuple descriptor become `None`, not an
  empty list.
- Extra keys of a dict descriptor are forwarded as keywords. They are not
  merged into `variables`.
- A list or tuple with fewer than two entries raises `IndexError`.
- A generator result that is not iterable fails the assertion.

## Model

| member | source | states |
|---|---|---|
| Kunoichi.Config | kunoichi.py:8-14 | `config(f)` appends `f` at the end of the registered list, keeps the earlier entries, and returns `f` itself |
| Kunoichi.ConfigAllAppends | kunoichi.py:6-14 | a sequence of `config` calls leaves the list equal to the earlier list followed by the functions in call order |
| Kunoichi.NewTask | kunoichi.py:24-30 | a task created with `None` is named `''`, any other name is kept, and `funcs` and `rules` start empty |
| Kunoichi.Build | kunoichi.py:32-37 | `build(f)` appends exactly `f` to `funcs`, changes nothing else and returns `f` |
| Kunoichi.BuildEachAppends | kunoichi.py:32-37 | repeated `build` calls keep the generators in declaration order, after those already declared, and change neither the name nor the rules |
| Kunoichi.DeclareRule | kunoichi.py:39-51 | with a callable, `rule` appends `(f, {})` and returns `f`; otherwise it appends nothing and returns a wrapper holding the keyword options |
| Kunoichi.ApplyWrapper | kunoichi.py:47-49 | applying the wrapper appends exactly `(f, options)` and returns `f`, changing nothing else |
| Kunoichi.RuleShapesAgree | kunoichi.py:39-51 | the bare decorator records the same entry as the wrapper of empty options applied to the same function; declaring options changes nothing until the wrapper is applied, which then appends `(f, opts)` |
| Kunoichi.Description | kunoichi.py:62-65 | the description is the explicit option when present and not `None`, else the docstring when there is one, else `''`; it is never `None` |
| Kunoichi.ResolveOptions | kunoichi.py:62-66 | after resolution `description` maps to the resolved description and every other key keeps its value; placing `description` last is the model's fixed order, since Python 2 keyword dicts have none |
| Kunoichi.ResolveOptionsIdempotent | kunoichi.py:62-66 | resolving already-resolved options changes neither the description nor the options, so a second `generate` sees the same description |
| Kunoichi.EmitRules | kunoichi.py:61-69 | one rule record per declared rule, in declaration order: named after the function, with the command the function returns for the configuration value and the resolved options; each stored rule keeps its function and holds the resolved options |
| Kunoichi.PositionalRecord | kunoichi.py:90-100 | a list or tuple of at least two entries gives outputs at index 0, rule at index 1, and `inputs`, `implicit`, `order_only`, `variables` from indices 2 to 5, `None` where absent; a shorter one raises `IndexError` |
| Kunoichi.KeyedRecord | kunoichi.py:84-88 | a dict succeeds iff it has both `outputs` and `rule`; a missing `outputs` raises `KeyError('outputs')` first, then a missing `rule` raises `KeyError('rule')`; the keywords lack both keys and give every other key its original value |
| Kunoichi.BuildRecord | kunoichi.py:83-100 | a dict gives the record or the `KeyError` of the dict normalisation; a list or tuple gives the record or the `IndexError` of the positional normalisation; anything else yields no record |
| Kunoichi.Records | kunoichi.py:83-100 | the records of a generator result are all build records, at most one per item |
| Kunoichi.RecordsSnoc | kunoichi.py:83-100 | the items are processed left to right: one more item adds its record after the earlier ones, or stops at its error |
| Kunoichi.RecordsOk | kunoichi.py:83-100 | the items normalise without error iff every item does |
| Kunoichi.RecordsFirstError | kunoichi.py:83-100 | a failing run reports the error of one of its items |
| Kunoichi.SkippedItemLeavesNoRecord | kunoichi.py:83-90 | an item that is neither dict nor list nor tuple has no effect on the records, wherever it stands |
| Kunoichi.RecordsOfDescriptors | kunoichi.py:83-100 | items that are all well-formed descriptors, no dict object repeated, give exactly one record each, in item order |
| Kunoichi.RecordsOfNonDescriptors | kunoichi.py:83-90 | items none of which is a descriptor give no records |
| Kunoichi.RecordsStopAtError | kunoichi.py:83-100 | once an item raises, the items after it are never processed |
| Kunoichi.AddBuild | kunoichi.py:78-100 | a non-iterable generator result fails the assertion; a list, tuple or generator result gives the records of its items in order; a string result yields only strings and a dict result (with string keys) only its keys, so either adds no record |
| Kunoichi.BuildAll | kunoichi.py:72-73 | the build loop records only build calls |
| Kunoichi.BuildAllSnoc | kunoichi.py:72-73 | build generators run in declaration order, each one's records after the earlier ones, and the loop stops at the first error |
| Kunoichi.BuildAllOk | kunoichi.py:72-73 | the build loop succeeds iff every generator's result goes through `_add_build` without error |
| Kunoichi.BuildAllStopsAtError | kunoichi.py:72-73 | once a generator's edges raise, later generators are not run |
| Kunoichi.Generate | kunoichi.py:53-76 | `generate` keeps the name and the build functions, and leaves each rule's options equal to their resolution: every declared option kept, `description` resolved. It succeeds iff the build loop does, and otherwise raises the build loop's exception. On success it writes one record per rule, in rule order, followed by exactly the build loop's records |
| Kunoichi.RulesPrecedeBuilds | kunoichi.py:60-73 | every rule record precedes every build record |
| Kunoichi.GenerateIsRepeatable | kunoichi.py:62-66 | generating again from the task a first `generate` leaves behind gives the same records and the same rules, for generators that return fresh descriptors |
| Kunoichi.RunRules | kunoichi.py:61-69 | the rule loop computes the recursive rule definition |
| Kunoichi.RunRecords | kunoichi.py:83-100 | the descriptor loop computes the recursive record definition, stopping at the first error |
| Kunoichi.RunAddBuild | kunoichi.py:78-100 | `_add_build` as a loop agrees with its definition |
| Kunoichi.RunBuilds | kunoichi.py:72-73 | the build loop agrees with its recursive definition |
| Kunoichi.RunGenerate | kunoichi.py:53-76 | `generate` as loops agrees with its definition |
| Kunoichi.DeclaredBuildsRunInOrder | kunoichi.py:24-37 | a new task with only build generators declared generates exactly the build loop over them, in declaration order |
| PyValues.Pop | kunoichi.py:85-86 | `dict.pop(k)` raises `KeyError(k)` iff `k` is absent, and otherwise returns the key's value and the dict without `k` |
| PyValues.Iterate | kunoichi.py:80-83 | iteration is defined exactly for iterable values; a list, tuple or generator yields its items in order, a string its one-character strings, and a dict its keys |
| PyValues.LookupRemove | kunoichi.py:85-88 | popping one key leaves the value of every other key unchanged |
| KunoichiExample.ExampleTaskShape | example.py:4-33 | example.py declares four rules in order, two of them holding the response-file options, and two build generators |
| KunoichiExample.ExampleRules | example.py:6-20 | each of the four rules is written with its command and an empty description, and the two response-file rules keep their options before it |
| KunoichiExample.MiniluaTupleRecord | example.py:26 | the three-entry tuple gives inputs and `None` for the positions it lacks |
| KunoichiExample.MiniluaDictRecord | example.py:27 | the dict edge gives its outputs and rule and forwards only `inputs` |
| KunoichiExample.MiniluaRecords | example.py:23-28 | `build_minilua` gives its two edges in list order |
| KunoichiExample.GlobEdgesRecords | example.py:30-33 | `build_luajit` gives one edge per globbed file, in glob order |
| KunoichiExample.ExampleBuilds | example.py:23-33 | the build loop writes the minilua edges, then the globbed ones |
| KunoichiExample.ExampleGenerates | example.py:4-36 | generating example.py's task writes the four rules, then the two minilua edges, then one edge per globbed file |
| KunoichiExample.MissingRuleKeyFails | kunoichi.py:85-86 | a dict edge without `rule` makes `generate` fail with `KeyError('rule')` |
| KunoShell.NewShellStep | lib/kuno/steps/shell.rb:10-12 | a fresh shell step builds `''` and has no arguments yet |
| KunoShell.Run | lib/kuno/steps/shell.rb:14-17 | `run(cmd, *args)` makes the step build `cmd` and hold `args` |
| KunoShell.Build | lib/kuno/steps/shell.rb:19-21 | `build` returns the current `@command` |
| KunoShell.Check | lib/kuno/steps/shell.rb:23-25 | `ShellStep.check` is always true |
| KunoShell.BuildAfterRuns | lib/kuno/steps/shell.rb:10-21 | `build` on a fresh step returns `''` if `run` was never called, else the command and arguments of the most recent call |
| KunoShell.LastRunWins | lib/kuno/steps/shell.rb:14-17 | after a non-empty series of `run` calls the step holds the last call's command and arguments, whatever it held before |
| KunoStep.Register | lib/kuno/step.rb:16-18 | `register(type, klass)` appends `klass` to the type's list, creating it if absent, returns that list, and leaves the other types and the cached map unchanged |
| KunoStep.RegisterSelf | lib/kuno/step.rb:37-41 | `StepExt#register(type)` on a class is `Step.register(type, self)` |
| KunoStep.Filter | lib/kuno/step.rb:25-29 | the filtered list of a type is no longer than its registered list, and every class in it passes `check` |
| KunoStep.FilterMembers | lib/kuno/step.rb:25-29 | the available classes of a type are exactly its registered classes whose `check` passes |
| KunoStep.FilterConcat | lib/kuno/step.rb:25-29 | filtering keeps registration order |
| KunoStep.FilterFirst | lib/kuno/step.rb:24-30 | the first available class is the first registered class whose `check` passes |
| KunoStep.ComputeAvailable | lib/kuno/step.rb:23-32 | a type has a key in the available map iff at least one of its classes passes `check`, never as an empty list, and its value is those classes in order |
| KunoStep.AvailableMappings | lib/kuno/step.rb:20-33 | a cached map is returned as it is; otherwise the map computed from the registrations by the `check` filter is returned and cached |
| KunoStep.CacheIgnoresLaterRegistrations | lib/kuno/step.rb:20-33 | once cached, the available map stays the same after any further registrations |
| KunoStep.Instantiate | lib/kuno/step.rb:13 | `ShellStep.new` takes no arguments and raises `ArgumentError` when given some; other classes receive the arguments |
| KunoStep.StepNew | lib/kuno/step.rb:11-14 | `Step.new` fills the cache and instantiates the first class of the type's available list; with no available list the lookup is nil and `nil.first` raises `NoMethodError` |
| KunoStep.StepNewFirstPassing | lib/kuno/step.rb:11-33 | with nothing cached, `Step.new` instantiates the first registered class of the type whose `check` passes |
| KunoStep.StepNewNonePassing | lib/kuno/step.rb:11-33 | with nothing cached, `Step.new` raises `NoMethodError` on nil when no registered class of the type passes `check` |
| KunoStep.StepNewRepeatable | lib/kuno/step.rb:20-33 | after a first `Step.new`, any further `Step.new` sees the cached map: it leaves the registry unchanged and gives the same result as on the registry it started from |
| KunoStep.LateRegistrationIsUnavailable | lib/kuno/step.rb:20-33 | a class registered after the first `Step.new` cannot be found, although a registry without a cache would find it |
| KunoStep.Loaded | lib/kuno/steps/shell.rb:6-8 | loading the library registers `ShellStep` under `:shell` and nothing else, with nothing cached |
| KunoStep.ShellAlwaysAvailable | lib/kuno/steps/shell.rb:23-25 | wherever `ShellStep` is registered it survives the availability filter |
| KunoStep.ShellResolves | lib/kuno/steps/shell.rb:6-12 | right after loading, `Step.new(:shell)` gives a fresh shell step whatever the other classes' `check` says |
| KunoTask.NewTask | lib/kuno/task.rb:7-15 | an exact `String` output is stored as a one-element array, anything else as given, so the stored outputs are never a bare `String`; steps and configs start empty |
| KunoTask.NewTaskIdempotent | lib/kuno/task.rb:8-12 | normalising the stored outputs again changes nothing |
| KunoTask.Step | lib/kuno/task.rb:17-21 | `step(type)` appends exactly one step, the one `Step.new(type)` gives after the block has configured it, and keeps the steps unchanged when `Step.new` raises |
| KunoTask.DefaultStepIsShell | lib/kuno/task.rb:17-20 | `step` with the default type in a freshly loaded library appends the block's configured fresh shell step |
| KunoTask.DefaultStepOnce | lib/kuno/task.rb:17-21 | from a registry where `Step.new(:shell)` gives a fresh shell step, a default `step` appends the block's configured shell step and nothing else |
| KunoTask.DefaultStepsFrom | lib/kuno/task.rb:17-21 | from a registry that resolves `:shell` and is cached, a series of default `step` calls appends one configured shell step per block, in block order |
| KunoTask.DefaultStepsInOrder | lib/kuno/task.rb:17-21 | in a freshly loaded library, a series of default `step` calls appends one configured shell step per block, in block order |
| KunoTask.Config | lib/kuno/task.rb:23-26 | `config` appends the block, nil included, at the end and changes nothing else |
| KunoTask.ConfigKeepsOrder | lib/kuno/task.rb:23-26 | configuration blocks are kept in the order given |

## Left out

- The `ninja_syntax` writer is not part of this model. Its escaping, line
  wrapping, list coercion and text format are reduced to the recorded
  calls. The recorder accepts every keyword: a rule option or an extra
  dict-descriptor key that `Writer.rule` or `Writer.build` does not declare
  would raise `TypeError` at kunoichi.py:69 or kunoichi.py:88, while the
  model records the call and `Generate` succeeds.
- The `BytesIO` buffer and its read-back are I/O.
- Exceptions raised by the rule functions, the build generators or `check`
  are not modelled: they are pure total function parameters.
- Kunoichi.ApplyWrapper: does not model that one wrapper applied to two
  functions shares one keyword dict. Resolving the first rule's description
  stores it in that shared dict, and the second rule then inherits it.
- Kunoichi.KeyedRecord: does not model that `pop` mutates the descriptor
  dict the generator returned. The change is invisible only when no dict
  object occurs twice among the descriptors one `generate` processes. A
  result that repeats one dict (`[d, d]`, `[d] * 2`) raises
  `KeyError('outputs')` at its second occurrence, where `Records` gives a
  record for each.
- Kunoichi.RecordsOfDescriptors: for the same reason, it holds in the
  program only when the descriptor dicts among the items are distinct
  objects; the model's values carry no object identity.
- Kunoichi.GenerateIsRepeatable: holds only for build generators that
  return fresh descriptors on every call. A generator returning the same
  dict each time loses `outputs` and `rule` to the first `generate`'s `pop`,
  so the second `generate` raises `KeyError('outputs')`. The model's
  generators are pure functions, so this aliasing is outside it.
- KunoStep.Instantiate: assumes the `new(*args)` of every step class other
  than `ShellStep` succeeds. An arity mismatch or an exception raised in such
  a class's `initialize` is not modelled, because those classes are not part
  of this model.
- Dict keys are strings. Keyword names must be strings for `**b` to
  succeed, so a non-string key is not modelled.
- PyValues.Iterate: iterables other than strings, lists, tuples, dicts and
  generators (sets, `xrange`, iterator objects, classes with `__iter__`)
  have no constructor of their own; they are to be written as the
  `PyGenerator` of the items they yield. `PyObject` is never iterable.
- Kunoichi.AddBuild: a dict returned by a generator has string keys here,
  so a dict whose keys are tuples, which kunoichi.py:83-100 would turn into
  build calls, is not modelled; the same tuples written as a `PyGenerator`
  or list are.
- `Task.build` and the wrapper are modelled for function objects only.
  Any other argument is stored and later called by `generate`, which would
  raise outside the model.
- `Docile.dsl_eval` is a parameter returning the configured step. Docile is
  not part of this model. So `step` without a block is not modelled.
- `puts` logging is output only.
- `@name`, printed by `Task#config`, is never set.
- The `options` parameter of `Task#step` is unused by the code.
- KunoStep.ComputeAvailable: Ruby hashes iterate in insertion order, but
  the map of types is unordered here. Per-type order, which is what
  `Step.new` sees, is kept.
- lib/kuno/group.rb and lib/kuno/build.rb only feed blocks to Docile and
  print.

=== FILE: example.dfy ===
/** The declarations of example.py, replayed through the model: the task
    `build_luajit` with its four rules and two build generators. The second
    generator globs the file system, so the matched file names are a
    parameter. */
module KunoichiExample {
  import opened Results
  import opened PyValues
  import opened Kunoichi

  const Cc := Func("cc", None, 0)
  const Link := Func("link", None, 1)
  const Mt := Func("mt", None, 2)
  const Lib := Func("lib", None, 3)
  const BuildMinilua := Func("build_minilua", None, 4)
  const BuildLuajit := Func("build_luajit", None, 5)

  const ResponseOptions: Dict := [("rspfile", PyStr("$out.rsp")), ("rspfile_content", PyStr("$in"))]

  /** The task after the module body of example.py has run. */
  function ExampleTask(): Task {
    var t := NewTask(PyStr("build_luajit"));
    var t := DeclareRule(t, PyFunction(Cc), []).0;
    var w := DeclareRule(t, PyNone, ResponseOptions);
    var t := ApplyWrapper(w.0, w.1.options, Link).0;
    var t := DeclareRule(t, PyFunction(Mt), []).0;
    var w := DeclareRule(t, PyNone, ResponseOptions);
    var t := ApplyWrapper(w.0, w.1.options, Lib).0;
    var t := Build(t, BuildMinilua).0;
    Build(t, BuildLuajit).0
  }

  function RuleCommand(f: Func, config: PyValue): PyValue {
    if f == Cc then PyStr("cl /nologo /c /Fo$out $in")
    else if f == Link then PyStr("link /nologo /out:$out @$out.rsp")
    else if f == Mt then PyStr("cmd /c if exist $in (mt /nologo -manifest $in -outputresource:$out")
    else PyStr("lib /nologo /out:$out @$out.rsp")
  }

  /** `('foobar', 'other', f)` for one globbed file. */
  function FoobarEdge(file: string): PyValue {
    PyTuple([PyStr("foobar"), PyStr("other"), PyStr(file)])
  }

  function Edges(files: seq<string>): seq<PyValue> {
    seq(|files|, i requires 0 <= i < |files| => FoobarEdge(files[i]))
  }

  /** What the two generators return: `build_minilua` a list of two
      edges, `build_luajit` a generator over the globbed files. */
  function Generated(files: seq<string>, f: Func, config: PyValue): PyValue {
    if f == BuildMinilua then PyList([MiniluaTuple, PyDict(MiniluaDict)])
    else PyGenerator(Edges(files))
  }

  function BuildEdges(files: seq<string>): (Func, PyValue) -> PyValue {
    (f: Func, config: PyValue) => Generated(files, f, config)
  }

  /** The `writer.build` call a positional edge with three entries makes. */
  function ThreeEntryCall(outputs: string, rule: string, inputs: string): Call {
    BuildCall(PyStr(outputs), PyStr(rule),
              [("inputs", PyStr(inputs)), ("implicit", PyNone), ("order_only", PyNone), ("variables", PyNone)])
  }

  /** The records of the `build_luajit` generator: one per file, in glob order. */
  lemma {:induction false} GlobEdgesRecords(files: seq<string>)
    ensures Records(Edges(files)) == Ok(GlobCalls(files))
  {
    var items := Edges(files);
    forall i | 0 <= i < |items|
      ensures IsDescriptor(items[i]) && BuildRecord(items[i]) == Ok(Some(ThreeEntryCall("foobar", "other", files[i])))
    {
      assert items[i] == FoobarEdge(files[i]);
    }
    RecordsOfDescriptors(items);
    assert Records(items).value == GlobCalls(files);
  }

  const ExampleRuleList: seq<Rule> :=
    [Rule(Cc, []), Rule(Link, ResponseOptions), Rule(Mt, []), Rule(Lib, ResponseOptions)]

  /** The task example.py declares: four rules in declaration order, the
      two with keyword options holding them, and two build generators. */
  lemma ExampleTaskShape()
    ensures ExampleTask() == Task(PyStr("build_luajit"), [BuildMinilua, BuildLuajit], ExampleRuleList)
  {
  }

  const ExampleRuleCalls: seq<Call> :=
    [ RuleCall("cc", PyStr("cl /nologo /c /Fo$out $in"), [("description", PyStr(""))])
    , RuleCall("link", PyStr("link /nologo /out:$out @$out.rsp"), ResponseOptions + [("description", PyStr(""))])
    , RuleCall("mt", PyStr("cmd /c if exist $in (mt /nologo -manifest $in -outputresource:$out"), [("description", PyStr(""))])
    , RuleCall("lib", PyStr("lib /nologo /out:$out @$out.rsp"), ResponseOptions + [("description", PyStr(""))])
    ]

  /** A rule declared bare, from a function without a docstring, is
      written with the single option `description=''`. */
  lemma ResolveBare(f: Func)
    requires f.doc.None?
    ensures ResolveOptions(f, []) == [(DescriptionKey, PyStr(""))]
  {
    assert Remove([], DescriptionKey) == [];
  }

  /** A rule declared with the response-file options keeps them and gains
      `description=''` at the end. */
  lemma ResolveResponse(f: Func)
    requires f.doc.None?
    ensures ResolveOptions(f, ResponseOptions) == ResponseOptions + [(DescriptionKey, PyStr(""))]
  {
    assert ResponseOptions[0].0 != DescriptionKey && ResponseOptions[1].0 != DescriptionKey;
    RemoveAbsent(ResponseOptions, DescriptionKey);
    assert Lookup(ResponseOptions, DescriptionKey) == None;
  }

  /** The rule loop writes each rule with an empty description, since none
      of the four functions has a docstring. */
  lemma ExampleRules(config: PyValue)
    ensures EmitRules(ExampleRuleList, config, RuleCommand).1 == ExampleRuleCalls
  {
    var calls := EmitRules(ExampleRuleList, config, RuleCommand).1;
    forall i | 0 <= i < 4
      ensures calls[i] == ExampleRuleCalls[i]
    {
      if i == 0 {
        ResolveBare(Cc);
      } else if i == 1 {
        ResolveResponse(Link);
      } else if i == 2 {
        ResolveBare(Mt);
      } else {
        ResolveResponse(Lib);
      }
    }
  }

  const MiniluaCalls: seq<Call> :=
    [ ThreeEntryCall("minilua.obj", "cc", "host/minilua.c")
    , BuildCall(PyStr("minilua.exe"), PyStr("link"), [("inputs", PyStr("minilua.obj"))]) ]

  const MiniluaTuple := PyTuple([PyStr("minilua.obj"), PyStr("cc"), PyStr("host/minilua.c")])
  const MiniluaDict: Dict := [("outputs", PyStr("minilua.exe")), ("rule", PyStr("link")), ("inputs", PyStr("minilua.obj"))]

  /** The tuple edge gets None for the positions it lacks. */
  lemma MiniluaTupleRecord()
    ensures BuildRecord(MiniluaTuple) == Ok(Some(MiniluaCalls[0]))
  {
  }

  /** The dict edge loses `outputs` and `rule` and forwards `inputs`. */
  lemma MiniluaDictRecord()
    ensures BuildRecord(PyDict(MiniluaDict)) == Ok(Some(MiniluaCalls[1]))
  {
    var rest: Dict := [("inputs", PyStr("minilua.obj"))];
    assert MiniluaDict[0].0 == "outputs";
    assert MiniluaDict[1..][0].0 == "rule";
    assert rest[0].0 != "outputs" && rest[0].0 != "rule";
    RemoveAbsent(rest, "outputs");
    RemoveAbsent(rest, "rule");
    assert MiniluaDict[1..][1..] == rest;
    assert Remove(MiniluaDict[1..], "outputs") == MiniluaDict[1..];
    assert Remove(MiniluaDict, "outputs") == MiniluaDict[1..];
    assert Remove(MiniluaDict[1..], "rule") == rest;
  }

  /** Two descriptors that both normalise give their two records in order. */
  lemma TwoRecords(a: PyValue, b: PyValue, x: Call, y: Call)
    requires BuildRecord(a) == Ok(Some(x)) && BuildRecord(b) == Ok(Some(y))
    ensures Records([a, b]) == Ok([x, y])
  {
    RecordsSnoc([], a);
    assert [] + [a] == [a];
    assert Records([a]) == Ok([] + [x]);
    assert [] + [x] == [x];
    RecordsSnoc([a], b);
    assert [a] + [b] == [a, b];
    assert [x] + [y] == [x, y];
  }

  /** `build_minilua`: both edges, in list order. */
  lemma MiniluaRecords(files: seq<string>, config: PyValue)
    ensures AddBuild(BuildEdges(files)(BuildMinilua, config)) == Ok(MiniluaCalls)
  {
    MiniluaTupleRecord();
    MiniluaDictRecord();
    TwoRecords(MiniluaTuple, PyDict(MiniluaDict), MiniluaCalls[0], MiniluaCalls[1]);
    assert BuildEdges(files)(BuildMinilua, config) == PyList([MiniluaTuple, PyDict(MiniluaDict)]);
  }

  function GlobCalls(files: seq<string>): seq<Call> {
    seq(|files|, i requires 0 <= i < |files| => ThreeEntryCall("foobar", "other", files[i]))
  }

  /** The build loop runs `build_minilua`, then `build_luajit`. */
  lemma ExampleBuilds(files: seq<string>, config: PyValue)
    ensures BuildAll([BuildMinilua, BuildLuajit], config, BuildEdges(files)) == Ok(MiniluaCalls + GlobCalls(files))
  {
    MiniluaRecords(files, config);
    GlobEdgesRecords(files);
    assert BuildEdges(files)(BuildLuajit, config) == PyGenerator(Edges(files));
    BuildAllSnoc([], BuildMinilua, config, BuildEdges(files));
    assert [] + [BuildMinilua] == [BuildMinilua];
    assert BuildAll([BuildMinilua], config, BuildEdges(files)) == Ok([] + MiniluaCalls);
    assert [] + MiniluaCalls == MiniluaCalls;
    BuildAllSnoc([BuildMinilua], BuildLuajit, config, BuildEdges(files));
    assert [BuildMinilua] + [BuildLuajit] == [BuildMinilua, BuildLuajit];
  }

  /** Generating example.py's task: four rule records, then the two
      minilua edges, then one edge per globbed file. */
  lemma ExampleGenerates(files: seq<string>, config: PyValue)
    ensures Generate(ExampleTask(), config, RuleCommand, BuildEdges(files)).1
         == Ok(ExampleRuleCalls + MiniluaCalls + GlobCalls(files))
  {
    ExampleTaskShape();
    ExampleRules(config);
    ExampleBuilds(files, config);
    assert ExampleRuleCalls + (MiniluaCalls + GlobCalls(files)) == ExampleRuleCalls + MiniluaCalls + GlobCalls(files);
  }

  const NoRuleEdge := PyDict([("outputs", PyStr("minilua.exe"))])

  /** A generator whose one edge forgets its `rule` key. */
  function NoRuleGenerator(f: Func, config: PyValue): PyValue {
    PyList([NoRuleEdge])
  }

  /** A dict edge without a `rule` key aborts generation with
      KeyError('rule'): no writer output is returned. */
  lemma MissingRuleKeyFails(config: PyValue)
    ensures Generate(ExampleTask(), config, RuleCommand, NoRuleGenerator).1 == Err(KeyError("rule"))
  {
    ExampleTaskShape();
    var d: Dict := [("outputs", PyStr("minilua.exe"))];
    assert d[0].0 == "outputs";
    assert !HasKey(d, "rule");
    assert KeyedRecord(d) == Err(KeyError("rule"));
    RecordsSnoc([], NoRuleEdge);
    assert [] + [NoRuleEdge] == [NoRuleEdge];
    assert AddBuild(NoRuleGenerator(BuildMinilua, config)) == Err(KeyError("rule"));
    BuildAllSnoc([], BuildMinilua, config, NoRuleGenerator);
    assert [] + [BuildMinilua] == [BuildMinilua];
    var funcs := [BuildMinilua, BuildLuajit];
    assert funcs[..1] == [BuildMinilua];
    BuildAllStopsAtError(funcs, config, NoRuleGenerator, 1);
  }
}

=== FILE: kuno_shell.dfy ===
/** lib/kuno/steps/shell.rb: `ShellStep`, a step that holds one shell
    command. Its registration under `:shell` happens in `KunoStep`, which
    owns the registry. */
module KunoShell {
  import opened RubyValues

  /** The instance variables of a `ShellStep`: `@command`, and `@args`,
      which is nil until `run` is first called. */
  datatype ShellStep = ShellStep(command: RbValue, args: RbValue)

  /** `ShellStep.new`: `initialize` sets `@command` to ''. */
  function NewShellStep(): (s: ShellStep)
    ensures Build(s) == RbString("")
    ensures s.args == RbNil
  {
    ShellStep(RbString(""), RbNil)
  }

  /** `run(cmd, *args)`: replaces the command and the arguments. */
  function Run(s: ShellStep, cmd: RbValue, args: seq<RbValue>): (s': ShellStep)
    ensures Build(s') == cmd
    ensures s'.args == RbArray(args)
  {
    ShellStep(cmd, RbArray(args))
  }

  /** `build`: the current command. */
  function Build(s: ShellStep): (r: RbValue)
    ensures r == s.command
  {
    s.command
  }

  /** `ShellStep.check`: a shell is always there. */
  function Check(): (available: bool)
    ensures available
  {
    true
  }

  /** One `run(cmd, *args)` call made on a step. */
  datatype RunCall = RunCall(cmd: RbValue, args: seq<RbValue>)

  /** The step after the calls `calls`, made in order. */
  function RunAll(s: ShellStep, calls: seq<RunCall>): ShellStep
    decreases |calls|
  {
    if |calls| == 0 then s
    else RunAll(Run(s, calls[0].cmd, calls[0].args), calls[1..])
  }

  /** `build` on a fresh step returns '' when `run` was never called, and
      otherwise the command of the most recent `run`, with that call's
      arguments: the last call wins. */
  lemma {:induction false} BuildAfterRuns(calls: seq<RunCall>)
    ensures |calls| == 0 ==> Build(RunAll(NewShellStep(), calls)) == RbString("")
    ensures |calls| > 0 ==> Build(RunAll(NewShellStep(), calls)) == calls[|calls| - 1].cmd
    ensures |calls| > 0 ==> RunAll(NewShellStep(), calls).args == RbArray(calls[|calls| - 1].args)
  {
    if |calls| > 0 {
      LastRunWins(NewShellStep(), calls);
    }
  }

  /** Any step, after a non-empty run of calls, is the last call's command
      and arguments, whatever it held before. */
  lemma {:induction false} LastRunWins(s: ShellStep, calls: seq<RunCall>)
    requires |calls| > 0
    ensures RunAll(s, calls) == ShellStep(calls[|calls| - 1].cmd, RbArray(calls[|calls| - 1].args))
    decreases |calls|
  {
    if |calls| > 1 {
      LastRunWins(Run(s, calls[0].cmd, calls[0].args), calls[1..]);
    }
  }
}

=== FILE: kuno_step.dfy ===
/** lib/kuno/step.rb: the class-level registry of step classes. Classes
    register under a step type; the first call to `available_mappings`
    keeps, per type, the classes whose `check` passes and caches that map
    for good; `Step.new(type)` instantiates the first available class.

    The class variables `@@type_mappings` and `@@_available_mappings` are
    the two fields of `Registry`, threaded through every operation. The
    `check` of a class other than `ShellStep` is the parameter `check`,
    applied to the class name. */
module KunoStep {
  import opened Results
  import opened RubyValues
  import KunoShell

  /** A step type, a Ruby symbol such as `:shell`. */
  type StepType = string

  /** A step class: `ShellStep`, or another class known by its name. */
  datatype StepClass = ShellStepClass | OtherStepClass(name: string)

  /** An instance of a step class. */
  datatype StepObject =
    | ShellObject(shell: KunoShell.ShellStep)
    | OtherObject(className: string, args: seq<RbValue>)

  type Mappings = map<StepType, seq<StepClass>>

  /** `@@type_mappings`, and `@@_available_mappings` (None while nil). */
  datatype Registry = Registry(typeMappings: Mappings, available: Option<Mappings>)

  /** Both class variables as step.rb initialises them. */
  const EmptyRegistry: Registry := Registry(map[], None)

  /** The classes registered under `stepType`, none if it has no list. */
  function Registered(reg: Registry, stepType: StepType): seq<StepClass> {
    if stepType in reg.typeMappings then reg.typeMappings[stepType] else []
  }

  /** `Step.register(type, klass)`: appends `klass` to the type's list,
      creating the list when absent; returns that list. The cached
      available map, if any, is not touched. */
  function Register(reg: Registry, stepType: StepType, klass: StepClass): (r: (Registry, seq<StepClass>))
    ensures r.0.typeMappings.Keys == reg.typeMappings.Keys + {stepType}
    ensures r.0.typeMappings[stepType] == Registered(reg, stepType) + [klass]
    ensures forall t :: t in reg.typeMappings && t != stepType ==> r.0.typeMappings[t] == reg.typeMappings[t]
    ensures r.0.available == reg.available
    ensures r.1 == r.0.typeMappings[stepType]
  {
    var list := Registered(reg, stepType) + [klass];
    (reg.(typeMappings := reg.typeMappings[stepType := list]), list)
  }

  /** `StepExt#register(type)`, called on the class `klass`. */
  function RegisterSelf(klass: StepClass, reg: Registry, stepType: StepType): (r: (Registry, seq<StepClass>))
    ensures r == Register(reg, stepType, klass)
  {
    Register(reg, stepType, klass)
  }

  /** `kls.check`: always true for `ShellStep` (shell.rb), `check` for the
      others. */
  function Passes(c: StepClass, check: string -> bool): bool {
    match c
    case ShellStepClass => KunoShell.Check()
    case OtherStepClass(name) => check(name)
  }

  /** The classes of `classes` whose `check` passes, in their order. */
  function Filter(classes: seq<StepClass>, check: string -> bool): (r: seq<StepClass>)
    ensures |r| <= |classes|
    ensures forall i :: 0 <= i < |r| ==> Passes(r[i], check)
  {
    if |classes| == 0 then []
    else
      var last := |classes| - 1;
      var kept := Filter(classes[..last], check);
      if Passes(classes[last], check) then kept + [classes[last]] else kept
  }

  /** A class is kept exactly when it is among the classes and passes. */
  lemma {:induction false} FilterMembers(classes: seq<StepClass>, check: string -> bool)
    ensures forall c :: c in Filter(classes, check) <==> c in classes && Passes(c, check)
  {
    if |classes| > 0 {
      var last := |classes| - 1;
      FilterMembers(classes[..last], check);
      assert classes == classes[..last] + [classes[last]];
    }
  }

  /** Filtering keeps relative order: filtering a concatenation is the
      concatenation of the filtered parts. */
  lemma {:induction false} FilterConcat(a: seq<StepClass>, b: seq<StepClass>, check: string -> bool)
    ensures Filter(a + b, check) == Filter(a, check) + Filter(b, check)
    decreases |b|
  {
    if |b| == 0 {
      assert a + b == a;
    } else {
      var last := |b| - 1;
      var ab := a + b;
      FilterConcat(a, b[..last], check);
      assert ab[..|ab| - 1] == a + b[..last];
      assert ab[|ab| - 1] == b[last];
      var kept := Filter(a, check) + Filter(b[..last], check);
      if Passes(b[last], check) {
        assert Filter(ab, check) == kept + [b[last]];
        assert Filter(b, check) == Filter(b[..last], check) + [b[last]];
      } else {
        assert Filter(ab, check) == kept;
        assert Filter(b, check) == Filter(b[..last], check);
      }
    }
  }

  /** The first available class is the first registered class whose
      `check` passes. */
  lemma {:induction false} FilterFirst(classes: seq<StepClass>, check: string -> bool)
    requires |Filter(classes, check)| > 0
    ensures exists i :: 0 <= i < |classes| && Filter(classes, check)[0] == classes[i]
                        && Passes(classes[i], check)
                        && forall j :: 0 <= j < i ==> !Passes(classes[j], check)
  {
    var head := classes[..1];
    var tail := classes[1..];
    assert classes == head + tail;
    FilterConcat(head, tail, check);
    assert head[..0] == [];
    if Passes(classes[0], check) {
      assert Filter(head, check) == [classes[0]];
    } else {
      assert Filter(head, check) == [];
      FilterFirst(tail, check);
      var i :| 0 <= i < |tail| && Filter(tail, check)[0] == tail[i]
               && Passes(tail[i], check)
               && forall j :: 0 <= j < i ==> !Passes(tail[j], check);
      assert classes[i + 1] == tail[i];
      forall j | 0 <= j < i + 1
        ensures !Passes(classes[j], check)
      {
        if j > 0 {
          assert classes[j] == tail[j - 1];
        }
      }
    }
  }

  /** The body of `available_mappings` when nothing is cached: a type gets
      a key exactly when at least one of its classes passes `check`, and
      then holds those classes in registration order. */
  function ComputeAvailable(mappings: Mappings, check: string -> bool): (r: Mappings)
    ensures forall t :: t in r <==> t in mappings && exists c :: c in mappings[t] && Passes(c, check)
    ensures forall t :: t in r ==> r[t] == Filter(mappings[t], check) && |r[t]| > 0
  {
    var r := map t | t in mappings && |Filter(mappings[t], check)| > 0 :: Filter(mappings[t], check);
    forall t | t in mappings
      ensures |Filter(mappings[t], check)| > 0 <==> exists c :: c in mappings[t] && Passes(c, check)
    {
      FilterMembers(mappings[t], check);
      if |Filter(mappings[t], check)| > 0 {
        assert Filter(mappings[t], check)[0] in Filter(mappings[t], check);
      }
    }
    r
  }

  /** `Step.available_mappings`: the cached map once there is one;
      otherwise it is computed from the registrations and cached. */
  function AvailableMappings(reg: Registry, check: string -> bool): (r: (Registry, Mappings))
    ensures reg.available.Some? ==> r == (reg, reg.available.value)
    ensures reg.available.None? ==> r.0 == reg.(available := Some(r.1))
    ensures reg.available.None? ==> r.1 == ComputeAvailable(reg.typeMappings, check)
    ensures reg.available.None? ==> forall t :: t in r.1 <==> t in reg.typeMappings && exists c :: c in reg.typeMappings[t] && Passes(c, check)
    ensures r.0.typeMappings == reg.typeMappings && r.0.available == Some(r.1)
  {
    match reg.available
    case Some(cached) => (reg, cached)
    case None =>
      var computed := ComputeAvailable(reg.typeMappings, check);
      (reg.(available := Some(computed)), computed)
  }

  /** `klass.new(*args)`. `ShellStep#initialize` takes no argument. */
  function Instantiate(c: StepClass, args: seq<RbValue>): (r: Result<StepObject, RbError>)
    ensures c.ShellStepClass? && |args| == 0 ==> r == Ok(ShellObject(KunoShell.NewShellStep()))
    ensures c.ShellStepClass? && |args| > 0 ==> r == Err(ArgumentError(|args|, 0))
    ensures c.OtherStepClass? ==> r == Ok(OtherObject(c.name, args))
  {
    match c
    case ShellStepClass =>
      if |args| == 0 then Ok(ShellObject(KunoShell.NewShellStep())) else Err(ArgumentError(|args|, 0))
    case OtherStepClass(name) => Ok(OtherObject(name, args))
  }

  /** `Step.new(type, *args)`: `available_mappings[type].first.new(*args)`.
      A type with no available class looks up nil, and `nil.first` raises
      NoMethodError. */
  function StepNew(reg: Registry, stepType: StepType, args: seq<RbValue>, check: string -> bool)
    : (r: (Registry, Result<StepObject, RbError>))
    ensures r.0 == AvailableMappings(reg, check).0
    ensures stepType !in AvailableMappings(reg, check).1 ==> r.1 == Err(NoMethodError("first"))
    ensures var available := AvailableMappings(reg, check).1;
            stepType in available && |available[stepType]| > 0 ==> r.1 == Instantiate(available[stepType][0], args)
    ensures var available := AvailableMappings(reg, check).1;
            stepType in available && |available[stepType]| == 0 ==> r.1 == Err(NoMethodError("new"))
  {
    var (reg', available) := AvailableMappings(reg, check);
    if stepType !in available then (reg', Err(NoMethodError("first")))
    else if |available[stepType]| == 0 then (reg', Err(NoMethodError("new")))
    else (reg', Instantiate(available[stepType][0], args))
  }

  /** With nothing cached yet, `Step.new` instantiates the first class
      registered under the type whose `check` passes. */
  lemma StepNewFirstPassing(reg: Registry, stepType: StepType, args: seq<RbValue>, check: string -> bool, i: nat)
    requires reg.available.None?
    requires i < |Registered(reg, stepType)| && Passes(Registered(reg, stepType)[i], check)
    requires forall j :: 0 <= j < i ==> !Passes(Registered(reg, stepType)[j], check)
    ensures StepNew(reg, stepType, args, check).1 == Instantiate(Registered(reg, stepType)[i], args)
  {
    var classes := Registered(reg, stepType);
    FilterMembers(classes, check);
    assert classes[i] in Filter(classes, check);
    var available := AvailableMappings(reg, check).1;
    assert stepType in available && available[stepType] == Filter(classes, check);
    FilterFirst(classes, check);
    var k :| 0 <= k < |classes| && Filter(classes, check)[0] == classes[k]
             && Passes(classes[k], check)
             && forall j :: 0 <= j < k ==> !Passes(classes[j], check);
    assert k == i;
  }

  /** With nothing cached yet, `Step.new` raises NoMethodError when no
      class registered under the type passes `check`. */
  lemma StepNewNonePassing(reg: Registry, stepType: StepType, args: seq<RbValue>, check: string -> bool)
    requires reg.available.None?
    requires forall c :: c in Registered(reg, stepType) ==> !Passes(c, check)
    ensures StepNew(reg, stepType, args, check).1 == Err(NoMethodError("first"))
  {
  }

  /** After its first use the cache is in place, so calling `Step.new`
      again, for any type, sees the same available map: the same call
      gives the same result and leaves the registry as it was. */
  lemma StepNewRepeatable(reg: Registry, first: StepType, stepType: StepType, args: seq<RbValue>,
                          check: string -> bool)
    ensures var after := StepNew(reg, first, [], check).0;
            StepNew(after, stepType, args, check).0 == after
    ensures var after := StepNew(reg, first, [], check).0;
            StepNew(after, stepType, args, check).1 == StepNew(reg, stepType, args, check).1
  {
    var after := StepNew(reg, first, [], check).0;
    assert after.available == Some(AvailableMappings(reg, check).1);
    assert AvailableMappings(after, check) == (after, AvailableMappings(reg, check).1);
  }

  /** A registry with the given registrations made in order. */
  function RegisterAll(reg: Registry, registrations: seq<(StepType, StepClass)>): Registry
    decreases |registrations|
  {
    if |registrations| == 0 then reg
    else RegisterAll(Register(reg, registrations[0].0, registrations[0].1).0, registrations[1..])
  }

  /** Once computed, the available map is stale for good: registrations
      made afterwards never reach it. */
  lemma {:induction false} CacheIgnoresLaterRegistrations(reg: Registry, registrations: seq<(StepType, StepClass)>,
                                                          check: string -> bool)
    requires reg.available.Some?
    ensures AvailableMappings(RegisterAll(reg, registrations), check).1 == AvailableMappings(reg, check).1
    decreases |registrations|
  {
    if |registrations| > 0 {
      var next := Register(reg, registrations[0].0, registrations[0].1).0;
      CacheIgnoresLaterRegistrations(next, registrations[1..], check);
    }
  }

  /** Loading step.rb requires shell.rb, whose class body runs
      `register :shell`. */
  function Loaded(): (reg: Registry)
    ensures reg.typeMappings == map["shell" := [ShellStepClass]]
    ensures reg.available.None?
  {
    var reg := RegisterSelf(ShellStepClass, EmptyRegistry, "shell").0;
    assert reg.typeMappings.Keys == {"shell"};
    assert Registered(EmptyRegistry, "shell") == [];
    assert [] + [ShellStepClass] == [ShellStepClass];
    assert reg.typeMappings["shell"] == [ShellStepClass];
    reg
  }

  /** `ShellStep.check` is true, so wherever `ShellStep` is registered it
      is available. */
  lemma ShellAlwaysAvailable(mappings: Mappings, stepType: StepType, check: string -> bool)
    requires stepType in mappings && ShellStepClass in mappings[stepType]
    ensures stepType in ComputeAvailable(mappings, check)
    ensures ShellStepClass in ComputeAvailable(mappings, check)[stepType]
  {
    FilterMembers(mappings[stepType], check);
  }

  /** `Step.new(:shell)` right after loading gives a fresh `ShellStep`,
      whatever the other classes' `check` says. */
  lemma ShellResolves(check: string -> bool)
    ensures StepNew(Loaded(), "shell", [], check).1 == Ok(ShellObject(KunoShell.NewShellStep()))
  {
    assert Registered(Loaded(), "shell") == [ShellStepClass];
    StepNewFirstPassing(Loaded(), "shell", [], check, 0);
  }

  /** The cache in action: once `Step.new` has filled it, a class
      registered under a new type stays unavailable even though its
      `check` passes, while a fresh registry would find it. */
  lemma LateRegistrationIsUnavailable(check: string -> bool, name: string)
    requires check(name)
    ensures var afterFirstUse := StepNew(Loaded(), "shell", [], check).0;
            var late := Register(afterFirstUse, "make", OtherStepClass(name)).0;
            StepNew(late, "make", [], check).1 == Err(NoMethodError("first"))
    ensures var registry := Register(Loaded(), "make", OtherStepClass(name)).0;
            StepNew(registry, "make", [], check).1 == Ok(OtherObject(name, []))
  {
    var loaded := Loaded();
    var afterFirstUse := StepNew(loaded, "shell", [], check).0;
    assert afterFirstUse.available == Some(ComputeAvailable(loaded.typeMappings, check));
    assert "make" !in loaded.typeMappings;
    var late := Register(afterFirstUse, "make", OtherStepClass(name)).0;
    assert late.available == afterFirstUse.available;
    var registry := Register(loaded, "make", OtherStepClass(name)).0;
    assert Registered(loaded, "make") == [];
    assert Registered(registry, "make") == [OtherStepClass(name)];
    StepNewFirstPassing(registry, "make", [], check, 0);
  }
}

=== FILE: kuno_task.dfy ===
/** lib/kuno/task.rb: a task holds its outputs, the steps declared in it and
    the configuration blocks handed to it. A block is an opaque value; the
    Docile evaluation that runs a step block against its step is the
    parameter `dslEval`, which returns the step object the block leaves. */
module KunoTask {
  import opened Results
  import opened RubyValues
  import KunoStep
  import KunoShell

  /** A Ruby block, known only by identity. */
  datatype Block = Block(id: nat)

  /** The instance variables `@outputs`, `@steps` and `@configs`; a nil
      block passed to `config` is `None`. */
  datatype Task = Task(outputs: RbValue, steps: seq<KunoStep.StepObject>, configs: seq<Option<Block>>)

  /** `Task.new(outputs)`: an instance of `String` itself is wrapped in a
      one-element array; anything else, a `String` subclass included, is
      kept as given. */
  function NewTask(outputs: RbValue): (t: Task)
    ensures outputs.RbString? ==> t.outputs == RbArray([outputs])
    ensures !outputs.RbString? ==> t.outputs == outputs
    ensures !t.outputs.RbString?
    ensures t.steps == [] && t.configs == []
  {
    var normalised := if outputs.RbString? then RbArray([outputs]) else outputs;
    Task(normalised, [], [])
  }

  /** Normalising the outputs twice changes nothing. */
  lemma {:induction false} NewTaskIdempotent(outputs: RbValue)
    ensures NewTask(NewTask(outputs).outputs) == NewTask(outputs)
  {
    var once := NewTask(outputs).outputs;
    assert !once.RbString?;
  }

  /** The default of `step`'s `type` parameter. */
  const DefaultStepType: KunoStep.StepType := "shell"

  /** `task.step(type) { ... }`: finds the step class through `Step.new`,
      lets the block configure the new step and appends it. When `Step.new`
      raises, the task keeps its steps. The unused `options` parameter and
      the `puts` are not modelled. The registry is returned because the
      first `Step.new` fills its cache. */
  function Step(reg: KunoStep.Registry, t: Task, stepType: KunoStep.StepType, block: Block,
                dslEval: (KunoStep.StepObject, Block) -> KunoStep.StepObject, check: string -> bool)
    : (r: (KunoStep.Registry, Result<Task, RbError>))
    ensures r.0 == KunoStep.StepNew(reg, stepType, [], check).0
    ensures r.1.Ok? <==> KunoStep.StepNew(reg, stepType, [], check).1.Ok?
    ensures r.1.Ok? ==> r.1.value == t.(steps := t.steps + [dslEval(KunoStep.StepNew(reg, stepType, [], check).1.value, block)])
    ensures r.1.Err? ==> r.1.error == KunoStep.StepNew(reg, stepType, [], check).1.error
  {
    var (reg', made) := KunoStep.StepNew(reg, stepType, [], check);
    match made
    case Ok(obj) => (reg', Ok(t.(steps := t.steps + [dslEval(obj, block)])))
    case Err(e) => (reg', Err(e))
  }

  /** `task.step { ... }` in a freshly loaded library: the block receives a
      new `ShellStep` and the result is the one step appended. */
  lemma DefaultStepIsShell(t: Task, block: Block, dslEval: (KunoStep.StepObject, Block) -> KunoStep.StepObject,
                           check: string -> bool)
    ensures Step(KunoStep.Loaded(), t, DefaultStepType, block, dslEval, check).1
         == Ok(t.(steps := t.steps + [dslEval(KunoStep.ShellObject(KunoShell.NewShellStep()), block)]))
  {
    KunoStep.ShellResolves(check);
  }

  /** The task after `step` calls with the blocks `blocks`, in order, each
      with the default type, or the first exception raised. */
  function DefaultSteps(reg: KunoStep.Registry, t: Task, blocks: seq<Block>,
                        dslEval: (KunoStep.StepObject, Block) -> KunoStep.StepObject, check: string -> bool)
    : (KunoStep.Registry, Result<Task, RbError>)
    decreases |blocks|
  {
    if |blocks| == 0 then (reg, Ok(t))
    else
      var (reg', done) := DefaultSteps(reg, t, blocks[..|blocks| - 1], dslEval, check);
      match done
      case Err(e) => (reg', Err(e))
      case Ok(t') => Step(reg', t', DefaultStepType, blocks[|blocks| - 1], dslEval, check)
  }

  /** The steps the blocks leave, each configuring a fresh `ShellStep`, in
      block order. */
  function ShellSteps(blocks: seq<Block>, dslEval: (KunoStep.StepObject, Block) -> KunoStep.StepObject)
    : (r: seq<KunoStep.StepObject>)
    ensures |r| == |blocks|
    ensures forall i :: 0 <= i < |blocks| ==> r[i] == dslEval(KunoStep.ShellObject(KunoShell.NewShellStep()), blocks[i])
    decreases |blocks|
  {
    if |blocks| == 0 then []
    else
      ShellSteps(blocks[..|blocks| - 1], dslEval)
        + [dslEval(KunoStep.ShellObject(KunoShell.NewShellStep()), blocks[|blocks| - 1])]
  }

  /** The registry once the first `Step.new(:shell)` of a freshly loaded
      library has filled the cache. */
  function Cached(check: string -> bool): KunoStep.Registry {
    KunoStep.StepNew(KunoStep.Loaded(), DefaultStepType, [], check).0
  }

  /** `Step.new(:shell)` on `reg` gives a fresh `ShellStep` and leaves the
      registry `after`. */
  predicate ResolvesShell(reg: KunoStep.Registry, after: KunoStep.Registry, check: string -> bool) {
    KunoStep.StepNew(reg, DefaultStepType, [], check) == (after, Ok(KunoStep.ShellObject(KunoShell.NewShellStep())))
  }

  /** The freshly loaded registry resolves `:shell` to the cached one,
      which keeps resolving it to itself. */
  lemma LoadedResolvesShell(check: string -> bool)
    ensures ResolvesShell(KunoStep.Loaded(), Cached(check), check)
    ensures ResolvesShell(Cached(check), Cached(check), check)
  {
    KunoStep.ShellResolves(check);
    KunoStep.StepNewRepeatable(KunoStep.Loaded(), DefaultStepType, DefaultStepType, [], check);
  }

  /** One default `step` from a registry that resolves `:shell`. */
  lemma DefaultStepOnce(reg: KunoStep.Registry, after: KunoStep.Registry, t: Task, block: Block,
                        dslEval: (KunoStep.StepObject, Block) -> KunoStep.StepObject, check: string -> bool)
    requires ResolvesShell(reg, after, check)
    ensures Step(reg, t, DefaultStepType, block, dslEval, check)
         == (after, Ok(t.(steps := t.steps + [dslEval(KunoStep.ShellObject(KunoShell.NewShellStep()), block)])))
  {
  }

  /** From a registry that resolves `:shell` to a cached registry, a series
      of default `step` calls appends one configured shell step per block,
      in block order. */
  lemma {:induction false} DefaultStepsFrom(reg: KunoStep.Registry, cached: KunoStep.Registry, t: Task,
                                            blocks: seq<Block>,
                                            dslEval: (KunoStep.StepObject, Block) -> KunoStep.StepObject,
                                            check: string -> bool)
    requires ResolvesShell(reg, cached, check) && ResolvesShell(cached, cached, check)
    ensures DefaultSteps(reg, t, blocks, dslEval, check).1 == Ok(t.(steps := t.steps + ShellSteps(blocks, dslEval)))
    ensures DefaultSteps(reg, t, blocks, dslEval, check).0 == if |blocks| == 0 then reg else cached
    decreases |blocks|
  {
    if |blocks| > 0 {
      var init := blocks[..|blocks| - 1];
      var last := blocks[|blocks| - 1];
      DefaultStepsFrom(reg, cached, t, init, dslEval, check);
      var before := t.(steps := t.steps + ShellSteps(init, dslEval));
      var current := if |init| == 0 then reg else cached;
      DefaultStepOnce(current, cached, before, last, dslEval, check);
      var shell := dslEval(KunoStep.ShellObject(KunoShell.NewShellStep()), last);
      assert ShellSteps(blocks, dslEval) == ShellSteps(init, dslEval) + [shell];
      assert t.steps + ShellSteps(init, dslEval) + [shell] == t.steps + ShellSteps(blocks, dslEval);
    } else {
      assert t.steps + ShellSteps(blocks, dslEval) == t.steps;
    }
  }

  /** In a freshly loaded library, a series of default `step` calls appends
      one configured shell step per block, in the order the blocks were
      given. */
  lemma DefaultStepsInOrder(t: Task, blocks: seq<Block>,
                            dslEval: (KunoStep.StepObject, Block) -> KunoStep.StepObject, check: string -> bool)
    ensures DefaultSteps(KunoStep.Loaded(), t, blocks, dslEval, check).1
         == Ok(t.(steps := t.steps + ShellSteps(blocks, dslEval)))
  {
    LoadedResolvesShell(check);
    DefaultStepsFrom(KunoStep.Loaded(), Cached(check), t, blocks, dslEval, check);
  }

  /** `task.config { ... }`: appends the block, nil included. */
  function Config(t: Task, block: Option<Block>): (t': Task)
    ensures t'.configs == t.configs + [block]
    ensures t'.outputs == t.outputs && t'.steps == t.steps
  {
    t.(configs := t.configs + [block])
  }

  /** The task after `config` calls with `blocks`, in order. */
  function ConfigAll(t: Task, blocks: seq<Option<Block>>): Task
    decreases |blocks|
  {
    if |blocks| == 0 then t else Config(ConfigAll(t, blocks[..|blocks| - 1]), blocks[|blocks| - 1])
  }

  /** Configuration blocks are kept in the order they were given, and
      nothing else about the task changes. */
  lemma {:induction false} ConfigKeepsOrder(t: Task, blocks: seq<Option<Block>>)
    ensures ConfigAll(t, blocks) == t.(configs := t.configs + blocks)
    decreases |blocks|
  {
    if |blocks| == 0 {
      assert t.configs + blocks == t.configs;
    } else {
      var init := blocks[..|blocks| - 1];
      ConfigKeepsOrder(t, init);
      assert blocks == init + [blocks[|blocks| - 1]];
      assert t.configs + init + [blocks[|blocks| - 1]] == t.configs + blocks;
    }
  }
}

=== FILE: kunoichi.dfy ===
/** kunoichi.py: the module-level list of config functions, the `Task`
    that records rule and build-generator declarations, and `generate`,
    which replays those declarations against a ninja writer.

    The writer itself (`ninja_syntax.Writer`) is not part of this model: it
    is reduced to the sequence of calls made on it, a trace of `RuleCall`
    and `BuildCall` records. Rule producers and build generators are the
    pure function parameters `callRule` and `callBuild`: applied to a
    function object and the config value, they give what the call returns.
*/
module Kunoichi {
  import opened Results
  import opened PyValues

  // ---------------------------------------------------------------------
  // Config functions (kunoichi.py:6-14)
  // ---------------------------------------------------------------------

  /** `config(func)`: the new contents of the module-level list
      `_config_functions`, and the value returned to the decorator site. */
  function Config(registered: seq<PyValue>, func: PyValue): (r: (seq<PyValue>, PyValue))
    ensures |r.0| == |registered| + 1
    ensures r.0[..|registered|] == registered
    ensures r.0[|registered|] == func
    ensures r.1 == func
  {
    (registered + [func], func)
  }

  /** The list after `config` has been applied to each of `funcs` in turn,
      as a module's decorated definitions do when it is imported. */
  function ConfigAll(registered: seq<PyValue>, funcs: seq<PyValue>): seq<PyValue>
    decreases |funcs|
  {
    if |funcs| == 0 then registered
    else ConfigAll(Config(registered, funcs[0]).0, funcs[1..])
  }

  /** Declaration order is list order: the functions end up after the ones
      already there, in the order they were declared. */
  lemma {:induction false} ConfigAllAppends(registered: seq<PyValue>, funcs: seq<PyValue>)
    ensures ConfigAll(registered, funcs) == registered + funcs
    decreases |funcs|
  {
    if |funcs| > 0 {
      ConfigAllAppends(registered + [funcs[0]], funcs[1..]);
      assert registered + [funcs[0]] + funcs[1..] == registered + funcs;
    }
  }

  // ---------------------------------------------------------------------
  // Task declarations (kunoichi.py:17-51)
  // ---------------------------------------------------------------------

  /** One entry of `Task.rules`: the rule function and its options dict. */
  datatype Rule = Rule(func: Func, options: Dict)

  /** A `Task`: its name, its build generators (`funcs`) and its rules. */
  datatype Task = Task(name: PyValue, funcs: seq<Func>, rules: seq<Rule>)

  /** `Task(name)`; `Task()` is `NewTask(PyNone)`. */
  function NewTask(name: PyValue): (t: Task)
    ensures name == PyNone ==> t.name == PyStr("")
    ensures name != PyNone ==> t.name == name
    ensures t.funcs == [] && t.rules == []
  {
    Task(if name == PyNone then PyStr("") else name, [], [])
  }

  /** `Task.build(func)`: records a build generator, returns it. */
  function Build(t: Task, func: Func): (r: (Task, Func))
    ensures |r.0.funcs| == |t.funcs| + 1
    ensures r.0.funcs[..|t.funcs|] == t.funcs && r.0.funcs[|t.funcs|] == func
    ensures r.0.name == t.name && r.0.rules == t.rules
    ensures r.1 == func
  {
    (t.(funcs := t.funcs + [func]), func)
  }

  /** The task after `build` has been applied to each of `funcs` in turn,
      as the decorated definitions of a module do when it is imported. */
  function BuildEach(t: Task, funcs: seq<Func>): Task
    decreases |funcs|
  {
    if |funcs| == 0 then t
    else BuildEach(Build(t, funcs[0]).0, funcs[1..])
  }

  /** Build generators are kept in declaration order, after the ones
      already declared; the name and the rules do not change. */
  lemma {:induction false} BuildEachAppends(t: Task, funcs: seq<Func>)
    ensures BuildEach(t, funcs) == t.(funcs := t.funcs + funcs)
    decreases |funcs|
  {
    if |funcs| == 0 {
      assert t.funcs + funcs == t.funcs;
    } else {
      BuildEachAppends(Build(t, funcs[0]).0, funcs[1..]);
      assert t.funcs + [funcs[0]] + funcs[1..] == t.funcs + funcs;
    }
  }

  /** A new task with only build generators declared generates exactly the
      build loop over them, in declaration order, and no rule. */
  lemma DeclaredBuildsRunInOrder(name: PyValue, funcs: seq<Func>, config: PyValue,
                                 callRule: (Func, PyValue) -> PyValue,
                                 callBuild: (Func, PyValue) -> PyValue)
    ensures Generate(BuildEach(NewTask(name), funcs), config, callRule, callBuild).1
         == BuildAll(funcs, config, callBuild)
  {
    BuildEachAppends(NewTask(name), funcs);
    assert [] + funcs == funcs;
    var t := BuildEach(NewTask(name), funcs);
    var r := Generate(t, config, callRule, callBuild).1;
    if r.Ok? {
      assert r.value == r.value[|t.rules|..];
    }
  }

  /** What `Task.rule` returns: the decorated function itself, or the
      decorator `_wrapper` closed over the keyword options. */
  datatype RuleReturn = Decorated(func: Func) | Wrapper(options: Dict)

  /** `Task.rule(func, **kwargs)`. A callable `func` is recorded at once
      with an empty options dict (any `kwargs` given beside it are dropped);
      anything else yields a wrapper and records nothing yet. Of the
      values modelled, only a function object has `__call__`: a `PyObject`
      stands for an object without one. */
  function DeclareRule(t: Task, func: PyValue, kwargs: Dict): (r: (Task, RuleReturn))
    ensures func.PyFunction? ==> r.0 == t.(rules := t.rules + [Rule(func.f, [])])
    ensures func.PyFunction? ==> r.1 == Decorated(func.f)
    ensures !func.PyFunction? ==> r.0 == t && r.1 == Wrapper(kwargs)
  {
    if func.PyFunction? then
      (t.(rules := t.rules + [Rule(func.f, [])]), Decorated(func.f))
    else
      (t, Wrapper(kwargs))
  }

  /** Applying the `_wrapper` that `Task.rule(**options)` returned. */
  function ApplyWrapper(t: Task, options: Dict, func: Func): (r: (Task, Func))
    ensures |r.0.rules| == |t.rules| + 1
    ensures r.0.rules[..|t.rules|] == t.rules
    ensures r.0.rules[|t.rules|] == Rule(func, options)
    ensures r.0.name == t.name && r.0.funcs == t.funcs
    ensures r.1 == func
  {
    (t.(rules := t.rules + [Rule(func, options)]), func)
  }

  /** The two declaration shapes agree: `@t.rule` and `@t.rule()` record
      the same `(f, {})`, and `@t.rule(**opts)` records `(f, opts)` only
      once the wrapper is applied. */
  lemma RuleShapesAgree(t: Task, f: Func, opts: Dict)
    ensures DeclareRule(t, PyFunction(f), []).0
         == ApplyWrapper(DeclareRule(t, PyNone, []).0, DeclareRule(t, PyNone, []).1.options, f).0
    ensures DeclareRule(t, PyNone, opts).0 == t
    ensures ApplyWrapper(DeclareRule(t, PyNone, opts).0, DeclareRule(t, PyNone, opts).1.options, f).0.rules
         == t.rules + [Rule(f, opts)]
  {
  }

  // ---------------------------------------------------------------------
  // generate: the rule loop (kunoichi.py:53-69)
  // ---------------------------------------------------------------------

  /** One call made on the writer: `writer.rule(name, command, **options)`
      or `writer.build(outputs, rule, **keywords)`. */
  datatype Call =
    | RuleCall(name: string, command: PyValue, options: Dict)
    | BuildCall(outputs: PyValue, rule: PyValue, keywords: Dict)

  const DescriptionKey: string := "description"

  /** The description a rule is written with: its `description` option
      unless that is missing or None, else the docstring, else ''. */
  function Description(func: Func, options: Dict): (d: PyValue)
    ensures d != PyNone
    ensures Lookup(options, DescriptionKey).Some? && Lookup(options, DescriptionKey).value != PyNone
            ==> d == Lookup(options, DescriptionKey).value
    ensures Lookup(options, DescriptionKey).GetOr(PyNone) == PyNone && func.doc.Some?
            ==> d == PyStr(func.doc.value)
    ensures Lookup(options, DescriptionKey).GetOr(PyNone) == PyNone && func.doc.None?
            ==> d == PyStr("")
  {
    var explicit := Lookup(options, DescriptionKey).GetOr(PyNone);
    if explicit != PyNone then explicit
    else if func.doc.Some? then PyStr(func.doc.value)
    else PyStr("")
  }

  /** The options dict once `generate` has popped `description` and stored
      the resolved value back: every other option is kept, and
      `description` becomes the last entry. Python 2 keyword dicts have
      no fixed order; putting the stored entry last is a choice of this
      model, and no property depends on it other than this placement. */
  function ResolveOptions(func: Func, options: Dict): (r: Dict)
    ensures Lookup(r, DescriptionKey) == Some(Description(func, options))
    ensures forall k :: k != DescriptionKey ==> Lookup(r, k) == Lookup(options, k)
    ensures |r| > 0 && r[|r| - 1] == (DescriptionKey, Description(func, options))
  {
    var kept := Remove(options, DescriptionKey);
    var stored := [(DescriptionKey, Description(func, options))];
    LookupConcat(kept, stored, DescriptionKey);
    forall k | k != DescriptionKey
      ensures Lookup(kept + stored, k) == Lookup(options, k)
    {
      LookupConcat(kept, stored, k);
      LookupRemove(options, DescriptionKey, k);
      assert stored[0].0 != k;
    }
    kept + stored
  }

  /** Resolving twice changes nothing: the stored description is not None,
      so the second pop finds it and stores it back in the same place. */
  lemma ResolveOptionsIdempotent(func: Func, options: Dict)
    ensures Description(func, ResolveOptions(func, options)) == Description(func, options)
    ensures ResolveOptions(func, ResolveOptions(func, options)) == ResolveOptions(func, options)
  {
    var d := Description(func, options);
    var kept := Remove(options, DescriptionKey);
    RemoveConcat(kept, [(DescriptionKey, d)], DescriptionKey);
    RemoveAbsent(kept, DescriptionKey);
    assert Remove([(DescriptionKey, d)], DescriptionKey) == [];
  }

  /** The rule loop of `generate` over `rules`: each rule with its options
      resolved, and the `writer.rule` calls made, one per rule in order. */
  function EmitRules(rules: seq<Rule>, config: PyValue, callRule: (Func, PyValue) -> PyValue)
    : (r: (seq<Rule>, seq<Call>))
    ensures |r.0| == |rules| && |r.1| == |rules|
    ensures forall i :: 0 <= i < |rules| ==>
              r.0[i] == Rule(rules[i].func, ResolveOptions(rules[i].func, rules[i].options))
    ensures forall i :: 0 <= i < |rules| ==>
              r.1[i] == RuleCall(rules[i].func.name, callRule(rules[i].func, config), r.0[i].options)
  {
    if |rules| == 0 then ([], [])
    else
      var done := EmitRules(rules[..|rules| - 1], config, callRule);
      var rule := rules[|rules| - 1];
      var resolved := Rule(rule.func, ResolveOptions(rule.func, rule.options));
      (done.0 + [resolved], done.1 + [RuleCall(rule.func.name, callRule(rule.func, config), resolved.options)])
  }

  // ---------------------------------------------------------------------
  // generate: edge descriptors (kunoichi.py:78-100)
  // ---------------------------------------------------------------------

  /** Whether `_add_build` turns an item into a `writer.build` call. */
  predicate IsDescriptor(b: PyValue) {
    b.PyDict? || b.PyList? || b.PyTuple?
  }

  /** The keywords positions 2 to 5 of a list or tuple descriptor fill. */
  const PositionalKeywords: seq<string> := ["inputs", "implicit", "order_only", "variables"]

  /** `b[i] if len(b) > i else None`. */
  function At(items: seq<PyValue>, i: nat): PyValue {
    if |items| > i then items[i] else PyNone
  }

  /** A list or tuple descriptor: `b[0]` and `b[1]` raise IndexError when
      the descriptor is shorter than two. */
  function PositionalRecord(items: seq<PyValue>): (r: Result<Call, PyError>)
    ensures r.Ok? <==> |items| >= 2
    ensures |items| < 2 ==> r == Err(IndexError(|items|))
    ensures r.Ok? ==> r.value.BuildCall? && r.value.outputs == items[0] && r.value.rule == items[1]
    ensures r.Ok? ==> |r.value.keywords| == |PositionalKeywords|
    ensures r.Ok? ==> forall i :: 0 <= i < |PositionalKeywords| ==>
              && r.value.keywords[i].0 == PositionalKeywords[i]
              && r.value.keywords[i].1 == (if |items| > i + 2 then items[i + 2] else PyNone)
  {
    if |items| < 1 then Err(IndexError(0))
    else if |items| < 2 then Err(IndexError(1))
    else
      Ok(BuildCall(items[0], items[1],
                   [ ("inputs", At(items, 2)), ("implicit", At(items, 3))
                   , ("order_only", At(items, 4)), ("variables", At(items, 5)) ]))
  }

  /** A dict descriptor: `outputs` is popped first, then `rule`, and what
      is left is passed on as keywords. */
  function KeyedRecord(entries: Dict): (r: Result<Call, PyError>)
    ensures r.Ok? <==> HasKey(entries, "outputs") && HasKey(entries, "rule")
    ensures !HasKey(entries, "outputs") ==> r == Err(KeyError("outputs"))
    ensures HasKey(entries, "outputs") && !HasKey(entries, "rule") ==> r == Err(KeyError("rule"))
    ensures r.Ok? ==> r.value.BuildCall?
    ensures r.Ok? ==> Lookup(entries, "outputs") == Some(r.value.outputs)
    ensures r.Ok? ==> Lookup(entries, "rule") == Some(r.value.rule)
    ensures r.Ok? ==> !HasKey(r.value.keywords, "outputs") && !HasKey(r.value.keywords, "rule")
    ensures r.Ok? ==> forall k :: k != "outputs" && k != "rule" ==>
              Lookup(r.value.keywords, k) == Lookup(entries, k)
  {
    LookupRemove(entries, "outputs", "rule");
    match Pop(entries, "outputs")
    case Err(e) => Err(e)
    case Ok(taken) =>
      match Pop(taken.1, "rule")
      case Err(e) => Err(e)
      case Ok(taken') =>
        var keywords := taken'.1;
        assert !HasKey(keywords, "outputs") by {
          LookupRemove(taken.1, "rule", "outputs");
        }
        forall k | k != "outputs" && k != "rule"
          ensures Lookup(keywords, k) == Lookup(entries, k)
        {
          LookupRemove(taken.1, "rule", k);
          LookupRemove(entries, "outputs", k);
        }
        Ok(BuildCall(taken.0, taken'.0, keywords))
  }

  /** The one loop step of `_add_build`: a record, nothing for an item that
      is neither a dict nor a list or tuple, or the exception raised. */
  function BuildRecord(b: PyValue): (r: Result<Option<Call>, PyError>)
    ensures !IsDescriptor(b) ==> r == Ok(None)
    ensures IsDescriptor(b) && r.Ok? ==> r.value.Some? && r.value.value.BuildCall?
    ensures b.PyDict? ==> (r.Ok? <==> KeyedRecord(b.entries).Ok?)
    ensures b.PyDict? && r.Ok? ==> r.value == Some(KeyedRecord(b.entries).value)
    ensures b.PyDict? && r.Err? ==> r.error == KeyedRecord(b.entries).error
    ensures b.PyList? || b.PyTuple? ==> (r.Ok? <==> PositionalRecord(b.items).Ok?)
    ensures (b.PyList? || b.PyTuple?) && r.Ok? ==> r.value == Some(PositionalRecord(b.items).value)
    ensures (b.PyList? || b.PyTuple?) && r.Err? ==> r.error == PositionalRecord(b.items).error
  {
    match b
    case PyDict(entries) =>
      (match KeyedRecord(entries) case Ok(c) => Ok(Some(c)) case Err(e) => Err(e))
    case PyList(items) =>
      (match PositionalRecord(items) case Ok(c) => Ok(Some(c)) case Err(e) => Err(e))
    case PyTuple(items) =>
      (match PositionalRecord(items) case Ok(c) => Ok(Some(c)) case Err(e) => Err(e))
    case _ => Ok(None)
  }

  /** Running `next` after `done`: an exception in `done` means `next`
      never runs; otherwise the calls of both, in order. */
  function Then(done: Result<seq<Call>, PyError>, next: Result<seq<Call>, PyError>): Result<seq<Call>, PyError> {
    match done
    case Err(e) => Err(e)
    case Ok(earlier) =>
      match next
      case Err(e) => Err(e)
      case Ok(later) => Ok(earlier + later)
  }

  /** The calls one loop step of `_add_build` makes. */
  function StepCalls(record: Result<Option<Call>, PyError>): Result<seq<Call>, PyError> {
    match record
    case Err(e) => Err(e)
    case Ok(None) => Ok([])
    case Ok(Some(c)) => Ok([c])
  }

  /** The `for b in val` loop of `_add_build` over `items`: the records in
      item order, or the first exception. */
  function Records(items: seq<PyValue>): (r: Result<seq<Call>, PyError>)
    ensures r.Ok? ==> |r.value| <= |items|
    ensures r.Ok? ==> forall c :: c in r.value ==> c.BuildCall?
  {
    if |items| == 0 then Ok([])
    else
      var last := |items| - 1;
      var done := Records(items[..last]);
      var step := BuildRecord(items[last]);
      assert done.Ok? && step.Ok? ==> StepCalls(step).Ok? && forall c :: c in StepCalls(step).value ==> c.BuildCall?;
      Then(done, StepCalls(step))
  }

  /** One more item: its record, if any, goes after the earlier ones. */
  lemma RecordsSnoc(items: seq<PyValue>, x: PyValue)
    ensures Records(items + [x]) == Then(Records(items), StepCalls(BuildRecord(x)))
  {
    assert (items + [x])[..|items|] == items;
    assert (items + [x])[|items|] == x;
  }

  /** The loop completes exactly when every item normalises. */
  lemma {:induction false} RecordsOk(items: seq<PyValue>)
    ensures Records(items).Ok? <==> forall i :: 0 <= i < |items| ==> BuildRecord(items[i]).Ok?
  {
    if |items| > 0 {
      var last := |items| - 1;
      RecordsOk(items[..last]);
      assert forall i :: 0 <= i < last ==> items[..last][i] == items[i];
    }
  }

  /** The exception the loop raises is that of the first item that fails. */
  lemma {:induction false} RecordsFirstError(items: seq<PyValue>)
    requires Records(items).Err?
    ensures exists i :: 0 <= i < |items| && BuildRecord(items[i]) == Err(Records(items).error)
                        && forall j :: 0 <= j < i ==> BuildRecord(items[j]).Ok?
  {
    var last := |items| - 1;
    var prefix := items[..last];
    assert forall i :: 0 <= i < last ==> prefix[i] == items[i];
    if Records(prefix).Err? {
      RecordsFirstError(prefix);
      var i :| 0 <= i < |prefix| && BuildRecord(prefix[i]) == Err(Records(prefix).error)
               && forall j :: 0 <= j < i ==> BuildRecord(prefix[j]).Ok?;
      assert BuildRecord(items[i]) == Err(Records(items).error);
    } else {
      RecordsOk(prefix);
      assert BuildRecord(items[last]) == Err(Records(items).error);
    }
  }

  /** Items that are neither dicts nor lists or tuples leave no trace: the
      result is as if they were not there. */
  lemma {:induction false} SkippedItemLeavesNoRecord(a: seq<PyValue>, x: PyValue, b: seq<PyValue>)
    requires !IsDescriptor(x)
    ensures Records(a + [x] + b) == Records(a + b)
    decreases |b|
  {
    if |b| == 0 {
      assert a + [x] + b == a + [x];
      RecordsSnoc(a, x);
      assert a + b == a;
      match Records(a)
      case Err(_) =>
      case Ok(p) => assert p + [] == p;
    } else {
      var b' := b[..|b| - 1];
      var y := b[|b| - 1];
      SkippedItemLeavesNoRecord(a, x, b');
      assert a + [x] + b == (a + [x] + b') + [y];
      assert a + b == (a + b') + [y];
      RecordsSnoc(a + [x] + b', y);
      RecordsSnoc(a + b', y);
    }
  }

  /** When every item is a descriptor that normalises, there is exactly one
      record per item, in item order. */
  lemma {:induction false} RecordsOfDescriptors(items: seq<PyValue>)
    requires forall i :: 0 <= i < |items| ==> IsDescriptor(items[i]) && BuildRecord(items[i]).Ok?
    ensures Records(items).Ok?
    ensures |Records(items).value| == |items|
    ensures forall i :: 0 <= i < |items| ==> Records(items).value[i] == BuildRecord(items[i]).value.value
  {
    if |items| > 0 {
      var last := |items| - 1;
      var prefix := items[..last];
      assert forall i :: 0 <= i < last ==> prefix[i] == items[i];
      RecordsOfDescriptors(prefix);
      assert items == prefix + [items[last]];
      RecordsSnoc(prefix, items[last]);
    }
  }

  /** A sequence with no descriptor in it yields no record. */
  lemma {:induction false} RecordsOfNonDescriptors(items: seq<PyValue>)
    requires forall x :: x in items ==> !IsDescriptor(x)
    ensures Records(items) == Ok([])
  {
    if |items| > 0 {
      var last := |items| - 1;
      var prefix := items[..last];
      assert forall x :: x in prefix ==> x in items;
      RecordsOfNonDescriptors(prefix);
      assert items == prefix + [items[last]];
      RecordsSnoc(prefix, items[last]);
      assert BuildRecord(items[last]) == Ok(None);
    }
  }

  /** Once a prefix of the items raises, the whole loop raises the same
      exception: nothing after it is looked at. */
  lemma {:induction false} RecordsStopAtError(items: seq<PyValue>, k: nat)
    requires k <= |items| && Records(items[..k]).Err?
    ensures Records(items) == Records(items[..k])
    decreases |items| - k
  {
    if k < |items| {
      assert items[..k + 1] == items[..k] + [items[k]];
      RecordsSnoc(items[..k], items[k]);
      RecordsStopAtError(items, k + 1);
    } else {
      assert items[..k] == items;
    }
  }

  /** `_add_build(writer, val)`: the generator's result must be iterable
      (AssertionError otherwise); its items are then handled in order, and
      a string or a dict, which iterate as strings, yields no record. */
  function AddBuild(val: PyValue): (r: Result<seq<Call>, PyError>)
    ensures !IsIterable(val) ==> r == Err(AssertionError)
    ensures val.PyStr? || val.PyDict? ==> r == Ok([])
    ensures val.PyList? || val.PyTuple? || val.PyGenerator? ==> r == Records(val.items)
    ensures r.Ok? ==> forall c :: c in r.value ==> c.BuildCall?
  {
    match Iterate(val)
    case None => Err(AssertionError)
    case Some(items) =>
      if val.PyStr? || val.PyDict? then
        RecordsOfNonDescriptors(items);
        Records(items)
      else
        Records(items)
  }

  /** The build loop of `generate` over the generators `funcs`, each called
      with the config: the records in order, or the first exception. */
  function BuildAll(funcs: seq<Func>, config: PyValue, callBuild: (Func, PyValue) -> PyValue)
    : (r: Result<seq<Call>, PyError>)
    ensures r.Ok? ==> forall c :: c in r.value ==> c.BuildCall?
  {
    if |funcs| == 0 then Ok([])
    else
      var last := |funcs| - 1;
      Then(BuildAll(funcs[..last], config, callBuild), AddBuild(callBuild(funcs[last], config)))
  }

  /** One more generator: its records go after the earlier ones. */
  lemma BuildAllSnoc(funcs: seq<Func>, f: Func, config: PyValue, callBuild: (Func, PyValue) -> PyValue)
    ensures BuildAll(funcs + [f], config, callBuild)
         == Then(BuildAll(funcs, config, callBuild), AddBuild(callBuild(f, config)))
  {
    assert (funcs + [f])[..|funcs|] == funcs;
    assert (funcs + [f])[|funcs|] == f;
  }

  /** The build loop completes exactly when every generator's result is
      iterable and all its items normalise. */
  lemma {:induction false} BuildAllOk(funcs: seq<Func>, config: PyValue, callBuild: (Func, PyValue) -> PyValue)
    ensures BuildAll(funcs, config, callBuild).Ok?
        <==> forall i :: 0 <= i < |funcs| ==> AddBuild(callBuild(funcs[i], config)).Ok?
  {
    if |funcs| > 0 {
      var last := |funcs| - 1;
      BuildAllOk(funcs[..last], config, callBuild);
      assert forall i :: 0 <= i < last ==> funcs[..last][i] == funcs[i];
    }
  }

  /** Once a prefix of the generators raises, the whole build loop raises
      the same exception. */
  lemma {:induction false} BuildAllStopsAtError(funcs: seq<Func>, config: PyValue,
                                                callBuild: (Func, PyValue) -> PyValue, k: nat)
    requires k <= |funcs| && BuildAll(funcs[..k], config, callBuild).Err?
    ensures BuildAll(funcs, config, callBuild) == BuildAll(funcs[..k], config, callBuild)
    decreases |funcs| - k
  {
    if k < |funcs| {
      assert funcs[..k + 1] == funcs[..k] + [funcs[k]];
      BuildAllSnoc(funcs[..k], funcs[k], config, callBuild);
      BuildAllStopsAtError(funcs, config, callBuild, k + 1);
    } else {
      assert funcs[..k] == funcs;
    }
  }

  // ---------------------------------------------------------------------
  // generate (kunoichi.py:53-76)
  // ---------------------------------------------------------------------

  /** `task.generate(config)`: the task afterwards (its rule options now
      hold the resolved descriptions, whether or not generation succeeds)
      and the writer calls made, or the exception raised. */
  function Generate(t: Task, config: PyValue,
                    callRule: (Func, PyValue) -> PyValue,
                    callBuild: (Func, PyValue) -> PyValue)
    : (r: (Task, Result<seq<Call>, PyError>))
    ensures r.0.name == t.name && r.0.funcs == t.funcs && |r.0.rules| == |t.rules|
    ensures forall i :: 0 <= i < |t.rules| ==>
              && r.0.rules[i].func == t.rules[i].func
              && Lookup(r.0.rules[i].options, DescriptionKey) == Some(Description(t.rules[i].func, t.rules[i].options))
    ensures forall i :: 0 <= i < |t.rules| ==> r.0.rules[i].options == ResolveOptions(t.rules[i].func, t.rules[i].options)
    ensures r.1.Ok? <==> BuildAll(t.funcs, config, callBuild).Ok?
    ensures r.1.Err? ==> r.1 == BuildAll(t.funcs, config, callBuild)
    ensures r.1.Ok? ==> |r.1.value| >= |t.rules|
    ensures r.1.Ok? ==> forall i :: 0 <= i < |t.rules| ==>
              r.1.value[i] == RuleCall(t.rules[i].func.name, callRule(t.rules[i].func, config), r.0.rules[i].options)
    ensures r.1.Ok? ==> forall i :: |t.rules| <= i < |r.1.value| ==> r.1.value[i].BuildCall?
    ensures r.1.Ok? ==> r.1.value[|t.rules|..] == BuildAll(t.funcs, config, callBuild).value
  {
    var emitted := EmitRules(t.rules, config, callRule);
    var out := match BuildAll(t.funcs, config, callBuild)
      case Err(e) => Err(e)
      case Ok(builds) =>
        assert forall i :: |t.rules| <= i < |emitted.1 + builds| ==> (emitted.1 + builds)[i] in builds;
        Ok(emitted.1 + builds);
    (t.(rules := emitted.0), out)
  }

  /** Every rule record comes before every build record. */
  lemma RulesPrecedeBuilds(t: Task, config: PyValue,
                           callRule: (Func, PyValue) -> PyValue,
                           callBuild: (Func, PyValue) -> PyValue)
    requires Generate(t, config, callRule, callBuild).1.Ok?
    ensures var trace := Generate(t, config, callRule, callBuild).1.value;
            forall i, j :: 0 <= i < j < |trace| && trace[j].RuleCall? ==> trace[i].RuleCall?
  {
  }

  /** Generating a second time from the task the first run left behind
      makes the same calls and leaves the task as it is: the resolved
      descriptions survive. */
  lemma GenerateIsRepeatable(t: Task, config: PyValue,
                             callRule: (Func, PyValue) -> PyValue,
                             callBuild: (Func, PyValue) -> PyValue)
    ensures var first := Generate(t, config, callRule, callBuild);
            Generate(first.0, config, callRule, callBuild) == first
  {
    var first := Generate(t, config, callRule, callBuild);
    var second := Generate(first.0, config, callRule, callBuild);
    forall i | 0 <= i < |t.rules|
      ensures second.0.rules[i] == first.0.rules[i]
    {
      ResolveOptionsIdempotent(t.rules[i].func, t.rules[i].options);
    }
    assert second.0.rules == first.0.rules;
    var rulesOnce := EmitRules(t.rules, config, callRule);
    var rulesTwice := EmitRules(first.0.rules, config, callRule);
    assert rulesTwice.1 == rulesOnce.1;
  }

  /** The rule loop of `generate`, written as kunoichi.py's `for` loop. */
  method RunRules(rules: seq<Rule>, config: PyValue, callRule: (Func, PyValue) -> PyValue)
    returns (resolved: seq<Rule>, trace: seq<Call>)
    ensures (resolved, trace) == EmitRules(rules, config, callRule)
  {
    resolved := [];
    trace := [];
    var i := 0;
    while i < |rules|
      invariant 0 <= i <= |rules|
      invariant (resolved, trace) == EmitRules(rules[..i], config, callRule)
    {
      var rule := rules[i];
      var options := ResolveOptions(rule.func, rule.options);
      resolved := resolved + [Rule(rule.func, options)];
      trace := trace + [RuleCall(rule.func.name, callRule(rule.func, config), options)];
      assert rules[..i + 1][..i] == rules[..i];
      i := i + 1;
    }
    assert rules[..i] == rules;
  }

  /** The `for b in val` loop of `_add_build`, left at the first
      exception. */
  method RunRecords(items: seq<PyValue>) returns (out: Result<seq<Call>, PyError>)
    ensures out == Records(items)
  {
    var added: seq<Call> := [];
    var k := 0;
    while k < |items|
      invariant 0 <= k <= |items|
      invariant Records(items[..k]) == Ok(added)
    {
      var record := BuildRecord(items[k]);
      assert items[..k + 1] == items[..k] + [items[k]];
      RecordsSnoc(items[..k], items[k]);
      if record.Err? {
        RecordsStopAtError(items, k + 1);
        return Err(record.error);
      }
      if record.value.Some? {
        added := added + [record.value.value];
      } else {
        assert added + [] == added;
      }
      k := k + 1;
    }
    assert items[..k] == items;
    return Ok(added);
  }

  /** `_add_build(writer, val)`: the assertion, then the loop. */
  method RunAddBuild(val: PyValue) returns (out: Result<seq<Call>, PyError>)
    ensures out == AddBuild(val)
  {
    if !IsIterable(val) {
      return Err(AssertionError);
    }
    out := RunRecords(Iterate(val).value);
  }

  /** The build loop of `generate`, leaving at the first exception. */
  method RunBuilds(funcs: seq<Func>, config: PyValue, callBuild: (Func, PyValue) -> PyValue)
    returns (out: Result<seq<Call>, PyError>)
    ensures out == BuildAll(funcs, config, callBuild)
  {
    var builds: seq<Call> := [];
    var j := 0;
    while j < |funcs|
      invariant 0 <= j <= |funcs|
      invariant BuildAll(funcs[..j], config, callBuild) == Ok(builds)
    {
      var added := RunAddBuild(callBuild(funcs[j], config));
      assert funcs[..j + 1] == funcs[..j] + [funcs[j]];
      BuildAllSnoc(funcs[..j], funcs[j], config, callBuild);
      if added.Err? {
        BuildAllStopsAtError(funcs, config, callBuild, j + 1);
        return Err(added.error);
      }
      builds := builds + added.value;
      j := j + 1;
    }
    assert funcs[..j] == funcs;
    return Ok(builds);
  }

  /** `generate` as kunoichi.py runs it: the rule loop, then the build loop. */
  method RunGenerate(t: Task, config: PyValue,
                     callRule: (Func, PyValue) -> PyValue,
                     callBuild: (Func, PyValue) -> PyValue)
    returns (after: Task, out: Result<seq<Call>, PyError>)
    ensures (after, out) == Generate(t, config, callRule, callBuild)
  {
    var resolved, trace := RunRules(t.rules, config, callRule);
    after := t.(rules := resolved);
    var builds := RunBuilds(t.funcs, config, callBuild);
    out := match builds
      case Err(e) => Err(e)
      case Ok(b) => Ok(trace + b);
  }
}

=== FILE: pyvalues.dfy ===
/** The slice of Python's runtime that kunoichi.py touches: function objects
    (their `__name__` and `__doc__`), the values a build generator may
    return, keyword-argument dicts, iteration, and the exceptions the core
    can raise. */
module PyValues {
  import opened Results

  /** A Python function object. `doc` is `__doc__`, `None` when the
      function has no docstring; `id` tells apart functions that share a
      name. */
  datatype Func = Func(name: string, doc: Option<string>, id: nat)

  /** The Python values an edge descriptor or a generator result can be. A
      dict is an association list (Python 2 dicts have no defined order;
      a fixed order is a choice of this model); a generator is the
      finite sequence of items it yields. */
  datatype PyValue =
    | PyNone
    | PyInt(i: int)
    | PyStr(s: string)
    | PyList(items: seq<PyValue>)
    | PyTuple(items: seq<PyValue>)
    | PyDict(entries: seq<(string, PyValue)>)
    | PyGenerator(items: seq<PyValue>)
    | PyFunction(f: Func)
    | PyObject(id: nat)   // an object that is neither callable nor iterable

  /** A dict with string keys: a `**kwargs` dict, or a descriptor dict. */
  type Dict = seq<(string, PyValue)>

  /** The exceptions the core raises: `dict.pop` of a missing key, a tuple
      index out of range, and a failed `assert`. */
  datatype PyError = KeyError(key: string) | IndexError(index: nat) | AssertionError

  predicate HasKey(d: Dict, k: string) {
    exists i :: 0 <= i < |d| && d[i].0 == k
  }

  /** `d.get(k)`: the value of the first entry with key `k`. */
  function Lookup(d: Dict, k: string): (r: Option<PyValue>)
    ensures r.Some? <==> HasKey(d, k)
  {
    if |d| == 0 then None
    else if d[0].0 == k then Some(d[0].1)
    else
      var r := Lookup(d[1..], k);
      assert HasKey(d[1..], k) ==> HasKey(d, k) by {
        if HasKey(d[1..], k) {
          var i :| 0 <= i < |d[1..]| && d[1..][i].0 == k;
          assert d[i + 1].0 == k;
        }
      }
      r
  }

  /** `del d[k]`, tolerating an absent key: every entry with key `k` goes,
      the others stay in their order. */
  function Remove(d: Dict, k: string): (r: Dict)
    ensures !HasKey(r, k)
    ensures |r| <= |d|
  {
    if |d| == 0 then []
    else if d[0].0 == k then Remove(d[1..], k)
    else
      var rest := Remove(d[1..], k);
      assert ([d[0]] + rest)[1..] == rest;
      [d[0]] + rest
  }

  /** Removing one key leaves the value of every other key as it was. */
  lemma {:induction false} LookupRemove(d: Dict, k: string, j: string)
    requires j != k
    ensures Lookup(Remove(d, k), j) == Lookup(d, j)
  {
    if |d| > 0 {
      LookupRemove(d[1..], k, j);
      if d[0].0 != k {
        assert ([d[0]] + Remove(d[1..], k))[1..] == Remove(d[1..], k);
      }
    }
  }

  /** Removing an absent key leaves the dict as it is. */
  lemma {:induction false} RemoveAbsent(d: Dict, k: string)
    requires !HasKey(d, k)
    ensures Remove(d, k) == d
  {
    if |d| > 0 {
      assert d[0].0 != k;
      RemoveAbsent(d[1..], k);
      assert d == [d[0]] + d[1..];
    }
  }

  /** Removal works entry by entry, so it keeps the relative order of what
      it keeps. */
  lemma {:induction false} RemoveConcat(a: Dict, b: Dict, k: string)
    ensures Remove(a + b, k) == Remove(a, k) + Remove(b, k)
  {
    if |a| > 0 {
      assert (a + b)[0] == a[0];
      assert (a + b)[1..] == a[1..] + b;
      RemoveConcat(a[1..], b, k);
    } else {
      assert a + b == b;
    }
  }

  /** Looking a key up in a concatenation finds the first part's entry
      when there is one. */
  lemma {:induction false} LookupConcat(a: Dict, b: Dict, k: string)
    ensures Lookup(a + b, k) == if HasKey(a, k) then Lookup(a, k) else Lookup(b, k)
  {
    if |a| > 0 {
      assert (a + b)[0] == a[0];
      assert (a + b)[1..] == a[1..] + b;
      LookupConcat(a[1..], b, k);
      if a[0].0 != k {
        assert HasKey(a[1..], k) <==> HasKey(a, k) by {
          if HasKey(a, k) {
            var i :| 0 <= i < |a| && a[i].0 == k;
            assert a[1..][i - 1].0 == k;
          }
        }
      }
    } else {
      assert a + b == b;
    }
  }

  /** `d.pop(k)`: the value and the dict without `k`, or `KeyError(k)`. */
  function Pop(d: Dict, k: string): (r: Result<(PyValue, Dict), PyError>)
    ensures r.Err? <==> !HasKey(d, k)
    ensures r.Err? ==> r.error == KeyError(k)
    ensures r.Ok? ==> Lookup(d, k) == Some(r.value.0) && r.value.1 == Remove(d, k)
  {
    match Lookup(d, k)
    case None => Err(KeyError(k))
    case Some(v) => Ok((v, Remove(d, k)))
  }

  /** Whether `isinstance(v, Iterable)` holds. */
  predicate IsIterable(v: PyValue) {
    v.PyStr? || v.PyList? || v.PyTuple? || v.PyDict? || v.PyGenerator?
  }

  /** `for item in v`: the items in iteration order, `None` for a value that
      is not iterable. A string yields its one-character strings and a dict
      its keys. */
  function Iterate(v: PyValue): (r: Option<seq<PyValue>>)
    ensures r.Some? <==> IsIterable(v)
    ensures r.Some? && (v.PyStr? || v.PyDict?) ==> forall x :: x in r.value ==> x.PyStr?
    ensures v.PyList? || v.PyTuple? || v.PyGenerator? ==> r == Some(v.items)
    ensures v.PyStr? ==> r.Some? && |r.value| == |v.s|
                         && forall i :: 0 <= i < |v.s| ==> r.value[i] == PyStr([v.s[i]])
    ensures v.PyDict? ==> r.Some? && |r.value| == |v.entries|
                          && forall i :: 0 <= i < |v.entries| ==> r.value[i] == PyStr(v.entries[i].0)
  {
    match v
    case PyList(items) => Some(items)
    case PyTuple(items) => Some(items)
    case PyGenerator(items) => Some(items)
    case PyStr(s) => Some(seq(|s|, i requires 0 <= i < |s| => PyStr([s[i]])))
    case PyDict(entries) => Some(seq(|entries|, i requires 0 <= i < |entries| => PyStr(entries[i].0)))
    case _ => None
  }
}

=== FILE: results.dfy ===
/** Option and Result wrappers shared by the Python and the Ruby halves of
    the model: an operation that raises an exception in kunoichi.py or in
    the kuno library returns `Err` here. */
module Results {

  datatype Option<+T> = None | Some(value: T) {

    /** The wrapped value, or `default` when there is none. */
    function GetOr(default: T): T {
      match this
      case Some(v) => v
      case None => default
    }
  }

  datatype Result<+T, +E> = Ok(value: T) | Err(error: E)
}

=== FILE: rubyvalues.dfy ===
/** The Ruby values the kuno library passes around, and the exceptions its
    core can raise. */
module RubyValues {

  /** A Ruby value. `RbString` is an instance of `String` itself;
      `RbStringSubclass` an instance of a subclass of `String`, for which
      `instance_of?(String)` is false. */
  datatype RbValue =
    | RbNil
    | RbString(s: string)
    | RbStringSubclass(className: string, s: string)
    | RbSymbol(name: string)
    | RbArray(items: seq<RbValue>)
    | RbObject(className: string, id: nat)

  /** `NoMethodError` for a method called on nil; `ArgumentError` for a
      call with the wrong number of arguments. */
  datatype RbError = NoMethodError(methodName: string) | ArgumentError(given: nat, expected: nat)
}
